=== FILE: README.md ===
# Median-cut palette reduction, modelled in Dafny

This project models the median-cut colour quantiser of Synopsis'
standard analyzer. The quantiser takes a buffer of three-channel colour
samples (`Point`) and a desired palette size. It returns one
(representative colour, sample count) pair per region it cut the colour
space into.

The quantiser has three parts, each modelled here:

- **`Block`** (`blocks.dfy`, module `Blocks`): an axis-aligned bounding box over a
  contiguous span `[start, start + len)` of the shared sample buffer. It
  answers the side lengths, the longest side and the volume, is ordered by
  volume, and `Shrink` recomputes its corners from its own samples.
- **`CoordinatePointComparator<index>`** (`points.dfy`, `Points.CoordLess`):
  orders samples by one channel. `selection.dfy` (module `Selection`)
  uses it to reorder a span around its median position, as `nth_element` does.
- **`medianCut`** (`median_cut.dfy`, module `Quantizer`, method `MedianCut`): the driver.
  - It starts with one shrunk block over the whole buffer.
  - It repeatedly picks a largest-volume block with at least two samples.
  - It reorders that block's span along its longest channel and splits it at
    position `(len + 1) / 2`, then shrinks both halves.
  - It stops when `desiredSize` blocks exist or no block has two samples.
  - It reduces each block to a representative colour and its sample count.
    The header calls that colour the block's "median colour"; this model
    takes the per-channel mean of the block's samples, rounded down.

The block list is kept in buffer order and forms a *tiling*
(`tiling.dfy`, module `Tiling`): consecutive, non-empty, disjoint spans
covering the whole buffer.
Every two blocks of the list are *separated* on some channel
(`separation.dfy`, module `Separation`): no sample of the earlier block
lies above any sample of the later one on that channel. Each cut at a
median creates such a pair, and later cuts only reorder samples inside
one block, so all pairs stay separated.

The buffer is a `seq<Point>` passed by value. The permuted buffer and the
final blocks are returned next to the palette, so the contracts can relate
each palette entry to the samples it summarises.

Channel values are exact integers. The representative colour is the
per-channel sum divided by the count, rounded down.

## Model

| member | source | states |
|---|---|---|
| Points.Min | Synopsis/StandardAnalyzer/MedianCut.h:59-66 | the result is one of the two arguments and is no greater than either |
| Points.Max | Synopsis/StandardAnalyzer/MedianCut.h:68-75 | the result is one of the two arguments and is no smaller than either |
| Points.CoordLessIsStrictWeakOrder | Synopsis/StandardAnalyzer/MedianCut.h:77-85 | the per-channel comparator is irreflexive, asymmetric and transitive, and incomparability is transitive: the strict weak ordering a selection algorithm requires |
| Points.CoordLessReadsOneChannel | Synopsis/StandardAnalyzer/MedianCut.h:77-85 | the comparator for channel `index` depends on that channel of both samples and on nothing else |
| Selection.NthElement | Synopsis/StandardAnalyzer/MedianCut.h:77-85 | reordering a span by the comparator keeps the span's multiset of samples, moves nothing outside the span, and leaves no sample before the median position greater on that channel than any sample at or after it |
| Blocks.ExtendBox | Synopsis/StandardAnalyzer/MedianCut.h:57-75 | one step of shrink: widening the box by channel-wise min/max with a new sample keeps it enclosing every sample seen and touching one on each face |
| Blocks.Shrink | Synopsis/StandardAnalyzer/MedianCut.h:57 | shrink keeps the span, makes the corners tight (every sample of the span lies inside them and every face is attained by a sample), and never grows a box that already enclosed the span |
| Blocks.TightCornersAreUnique | Synopsis/StandardAnalyzer/MedianCut.h:46-48 | tight corners are fixed by the samples of the span alone, so a block's corners depend on nothing outside its own span |
| Blocks.TightIsOrdered | Synopsis/StandardAnalyzer/MedianCut.h:47 | after shrinking, `minCorner` is at most `maxCorner` on every channel |
| Blocks.LongestSideIndex | Synopsis/StandardAnalyzer/MedianCut.h:53 | returns a channel in `[0, NUM_DIMENSIONS)` whose side is at least every other side, and the lowest such channel |
| Blocks.LongestSideLength | Synopsis/StandardAnalyzer/MedianCut.h:54 | returns the greatest side, which is some channel's side and at least every channel's side, and is non-negative for ordered corners |
| Blocks.SideProductSign | Synopsis/StandardAnalyzer/MedianCut.h:55 | the product of the first `d` sides is zero exactly when one of those sides is zero, and is non-negative when those sides are |
| Blocks.VolumeSign | Synopsis/StandardAnalyzer/MedianCut.h:55 | the volume, the product of all sides, is zero exactly when some side is zero, and is non-negative for ordered corners |
| Blocks.BlockLessIsStrictWeakOrder | Synopsis/StandardAnalyzer/MedianCut.h:56 | ordering blocks by volume is a strict weak ordering, and blocks neither before the other have equal volume |
| Blocks.Split | Synopsis/StandardAnalyzer/MedianCut.h:50-52 | a block with at least two samples splits into two non-empty consecutive halves that start where the parent starts and end where it ends, the left half larger by at most one |
| Blocks.SplitPartitionsSpan | Synopsis/StandardAnalyzer/MedianCut.h:46-52 | the two halves delimit, in order, exactly the parent's samples, and the parent's box encloses each half |
| Tiling.TilesSumLen | Synopsis/StandardAnalyzer/MedianCut.h:88-90 | the lengths of blocks that tile a range add up to the range's size |
| Tiling.TilesCount | Synopsis/StandardAnalyzer/MedianCut.h:88-90 | a tiling has at most as many blocks as positions, and exactly as many precisely when every block holds one sample |
| Tiling.TilesTail | Synopsis/StandardAnalyzer/MedianCut.h:46-52 | the blocks after the first of a tiling tile the rest of the range, from where the first block ends |
| Tiling.TilesOrder | Synopsis/StandardAnalyzer/MedianCut.h:46-52 | every block of a tiling lies inside the range, is non-empty, and ends before the next one starts |
| Tiling.TilesCover | Synopsis/StandardAnalyzer/MedianCut.h:46-52 | every position of the tiled range lies in some block |
| Tiling.TilesPartition | Synopsis/StandardAnalyzer/MedianCut.h:46-52 | every position of the tiled range lies in exactly one block |
| Tiling.TilesSplit | Synopsis/StandardAnalyzer/MedianCut.h:90 | replacing a block by two consecutive non-empty halves of its span keeps the list a tiling |
| Quantizer.SelectBlock | Synopsis/StandardAnalyzer/MedianCut.h:55-56 | picks a block with at least two samples that no other such block exceeds by volume, and picks none exactly when no block has two samples |
| Quantizer.NeighboursStayTight | Synopsis/StandardAnalyzer/MedianCut.h:46-48 | reordering one block's span leaves every other block's samples and tight corners valid |
| Quantizer.SplitBlock | Synopsis/StandardAnalyzer/MedianCut.h:90 | one split step cuts along a longest channel, permutes only the chosen span, keeps the tiling and the multiset of samples, changes no other block, cuts at the median position, so the left half holds `(len + 1) / 2` samples and the right half the rest, keeps every block tight, keeps the multiset of the cut span's own samples, leaves no left-half sample greater than a right-half sample on the cut channel, and keeps every pair of blocks separated on some channel |
| Separation.SeparatedShrinks | Synopsis/StandardAnalyzer/MedianCut.h:46-52 | blocks whose samples were all drawn from two separated blocks are separated on the same channel |
| Separation.SubSpanWithinParent | Synopsis/StandardAnalyzer/MedianCut.h:50-52 | after a block's span is reordered among itself, every sample of a sub-span of it was a sample of the block before |
| Separation.HalvesSeparated | Synopsis/StandardAnalyzer/MedianCut.h:50-52 | two adjacent halves partitioned on a channel are separated on that channel |
| Separation.UnsortedHalvesAreNotSeparated | Synopsis/StandardAnalyzer/MedianCut.h:90 | halving the unsorted samples 5, 0, 9, 1 without reordering leaves halves that no channel separates |
| Separation.ChildWithinParent | Synopsis/StandardAnalyzer/MedianCut.h:90 | after one split, every sample of each block of the new list was a sample of its parent block in the old list |
| Separation.SplitKeepsSeparated | Synopsis/StandardAnalyzer/MedianCut.h:90 | one median split keeps every pair of blocks separated on some channel: the two halves on the cut channel, every other pair on its parents' channel |
| Quantizer.MeanInBox | Synopsis/StandardAnalyzer/MedianCut.h:88 | a block's representative colour lies inside every box enclosing its samples, so inside its tight box |
| Quantizer.MeanOfUniform | Synopsis/StandardAnalyzer/MedianCut.h:88 | samples that are all one colour have that colour as representative |
| Quantizer.SumCountsMatchesSumLen | Synopsis/StandardAnalyzer/MedianCut.h:88-90 | a palette whose counts are the block lengths has the blocks' total length as total count |
| Quantizer.Summarize | Synopsis/StandardAnalyzer/MedianCut.h:88-90 | one entry per block, in block order, holding the block's sample count and the mean of the block's own samples; the counts add up to the blocks' total length |
| Quantizer.MedianCut | Synopsis/StandardAnalyzer/MedianCut.h:88-90 | the buffer is only permuted; the final blocks tile it with tight corners; each entry's count is its block's length (at least one) and its colour is the mean of its block's own samples, which lies in its block's box; every two final blocks are separated on some channel, so no sample of the earlier block lies above any sample of the later one on that channel; the counts add up to the number of samples; the palette is empty for no samples and otherwise has exactly `min(max(desiredSize, 1), numPoints)` entries |

## Left out

- The Objective-C plugin (`StandardAnalyzerPlugin.h`) is not part of this model. It covers plugin metadata, the session lifecycle, sample-buffer decoding and dictionary/error plumbing, and it calls into Foundation and CoreMedia.
- IEEE `float` channel values and the float-to-`int` truncation in `longestSideLength` and `volume` are not modelled. Channels are exact integers, so sides and volumes are exact.
- 32-bit `int` and `unsigned int` widths are not modelled. Counts, sums and volumes are unbounded, so overflow of the volume product or the channel sums is out of scope.
- The in-place mutation of `image` through a pointer is modelled as a sequence passed in and returned permuted.
- The `std::list` and priority-queue mechanics are not modelled. Blocks are `(start, len)` spans kept in buffer order, and the output order is block order.
- Quantizer.SelectBlock: the contract leaves the tie-break among equal-volume blocks open. The method happens to pick the lowest such block, and the driver relies on the contract only.
- Quantizer.MedianCut: MedianCut.h declares `operator<` (line 56) without a body; this model assumes it compares `volume()` (line 55) and picks a largest-volume block among those with at least two samples. The literateprograms.org median-cut code that MedianCut.h:3 and :24 credit keeps its blocks in a priority queue ordered by `longestSideLength()`, and its loop `blockQueue.size() < desiredSize && blockQueue.top().numPoints() > 1` stops as soon as the top block holds a single sample. That queue order and that early stop are not modelled.
- Quantizer.MedianCut: a block of identical samples with two or more of them is still split. So all-equal input gives `min(max(desiredSize, 1), numPoints)` entries of the same colour, not a single entry.
- Quantizer.MedianCut: an empty buffer gives an empty palette. MedianCut.h declares `medianCut` without a body and says nothing about an empty buffer; this model returns an empty palette for it and never shrinks an empty span.
- Quantizer.Summarize: MedianCut.h:88 calls the representative the "median colour". This model takes the per-channel mean of the block's samples, rounded down, as the classic median-cut reduction does. Its contract pins the colour to exactly that floored mean (`Mean(Span(buf, blocks[k]))`). A per-channel median, or a mean rounded another way, is not modelled.
- Selection.NthElement: the contract states the partition guarantee only. It does not state that the element at the median position is the one a full sort would put there. The split needs only the partition, and the span is sorted in full.
- The header does not define the `Block` constructor's initial corners, and they are not modelled. Every block is shrunk right after it is made, so its initial corners are never read.
- Compiler pragmas and include guards carry no behaviour.

=== FILE: blocks.dfy ===
/**
  A block: an axis-aligned bounding box over one contiguous span of the
  shared sample buffer.

  A block holds the span `[start, start + len)` and two corners; it never
  holds samples itself. Every query here reads only the corners, and
  `Shrink` reads only the samples inside the block's own span.
 */
module Blocks {
  import opened Points

  /** The span `[start, start + len)` of the buffer, with its corners. */
  datatype Block = Block(start: nat, len: nat, minCorner: Point, maxCorner: Point)

  /** One past the last buffer position the block delimits. */
  function End(b: Block): nat
  {
    b.start + b.len
  }

  /** The block's span lies inside a buffer of `n` samples. */
  predicate InBuffer(b: Block, n: nat)
  {
    End(b) <= n
  }

  /** Buffer position `i` lies in the block's span. */
  predicate InSpan(b: Block, i: int)
  {
    b.start <= i < End(b)
  }

  /** The samples the block delimits (`getPoints` read for `numPoints` samples). */
  function Span(buf: seq<Point>, b: Block): seq<Point>
    requires InBuffer(b, |buf|)
  {
    buf[b.start .. End(b)]
  }

  /** A block with at least two samples can be split into two non-empty halves. */
  predicate Splittable(b: Block)
  {
    b.len >= 2
  }

  /** `p` lies inside the box with corners `lo` and `hi`. */
  predicate InBox(p: Point, lo: Point, hi: Point)
  {
    forall j | 0 <= j < NUM_DIMENSIONS :: lo[j] <= p[j] <= hi[j]
  }

  /** Every sample of `pts` lies inside the box. */
  predicate Encloses(pts: seq<Point>, lo: Point, hi: Point)
  {
    forall k | 0 <= k < |pts| :: InBox(pts[k], lo, hi)
  }

  /** Every face of the box touches a sample: on each channel some sample
      has the value `lo` gives and some sample has the value `hi` gives. */
  predicate Attains(pts: seq<Point>, lo: Point, hi: Point)
  {
    forall j | 0 <= j < NUM_DIMENSIONS ::
      (exists k | 0 <= k < |pts| :: pts[k][j] == lo[j]) &&
      (exists k | 0 <= k < |pts| :: pts[k][j] == hi[j])
  }

  /** The block's corners are the exact per-channel extremes of its span. */
  predicate Tight(buf: seq<Point>, b: Block)
  {
    && InBuffer(b, |buf|)
    && Encloses(Span(buf, b), b.minCorner, b.maxCorner)
    && Attains(Span(buf, b), b.minCorner, b.maxCorner)
  }

  /** Growing the box by one sample keeps it enclosing and tight. */
  lemma {:induction false} ExtendBox(pts: seq<Point>, lo: Point, hi: Point, p: Point)
    requires Encloses(pts, lo, hi) && Attains(pts, lo, hi)
    ensures Encloses(pts + [p], PointMin(lo, p), PointMax(hi, p))
    ensures Attains(pts + [p], PointMin(lo, p), PointMax(hi, p))
  {
    var q := pts + [p];
    var lo', hi' := PointMin(lo, p), PointMax(hi, p);
    forall k | 0 <= k < |q|
      ensures InBox(q[k], lo', hi')
    {
      if k < |pts| {
        assert q[k] == pts[k];
        assert InBox(pts[k], lo, hi);
      }
    }
    forall j | 0 <= j < NUM_DIMENSIONS
      ensures (exists k | 0 <= k < |q| :: q[k][j] == lo'[j])
      ensures (exists k | 0 <= k < |q| :: q[k][j] == hi'[j])
    {
      if lo'[j] == p[j] {
        assert q[|pts|][j] == lo'[j];
      } else {
        assert exists k | 0 <= k < |pts| :: pts[k][j] == lo[j];
        var k :| 0 <= k < |pts| && pts[k][j] == lo[j];
        assert q[k][j] == lo'[j];
      }
      if hi'[j] == p[j] {
        assert q[|pts|][j] == hi'[j];
      } else {
        assert exists k | 0 <= k < |pts| :: pts[k][j] == hi[j];
        var k :| 0 <= k < |pts| && pts[k][j] == hi[j];
        assert q[k][j] == hi'[j];
      }
    }
  }

  /** Corners attained by samples of `pts` lie inside any box enclosing `pts`. */
  lemma {:induction false} AttainedCornersInBox(pts: seq<Point>, lo: Point, hi: Point, lo': Point, hi': Point)
    requires Encloses(pts, lo, hi) && Attains(pts, lo', hi')
    ensures InBox(lo', lo, hi) && InBox(hi', lo, hi)
  {
  }

  /** Recomputes the corners from the samples of the block's own span.
      The span itself is left as it is; the new box is tight, and it lies
      inside the old one whenever the old one enclosed the span. */
  method Shrink(buf: seq<Point>, b: Block) returns (r: Block)
    requires InBuffer(b, |buf|) && b.len >= 1
    ensures r.start == b.start && r.len == b.len
    ensures Tight(buf, r)
    ensures Encloses(Span(buf, b), b.minCorner, b.maxCorner) ==>
      InBox(r.minCorner, b.minCorner, b.maxCorner) && InBox(r.maxCorner, b.minCorner, b.maxCorner)
  {
    var lo := buf[b.start];
    var hi := buf[b.start];
    assert buf[b.start .. b.start + 1] == [buf[b.start]];
    var i := 1;
    while i < b.len
      invariant 1 <= i <= b.len
      invariant Encloses(buf[b.start .. b.start + i], lo, hi)
      invariant Attains(buf[b.start .. b.start + i], lo, hi)
    {
      var p := buf[b.start + i];
      ExtendBox(buf[b.start .. b.start + i], lo, hi, p);
      assert buf[b.start .. b.start + i + 1] == buf[b.start .. b.start + i] + [p];
      lo := PointMin(lo, p);
      hi := PointMax(hi, p);
      i := i + 1;
    }
    r := b.(minCorner := lo, maxCorner := hi);
    if Encloses(Span(buf, b), b.minCorner, b.maxCorner) {
      AttainedCornersInBox(Span(buf, b), b.minCorner, b.maxCorner, lo, hi);
    }
  }

  /** Tight corners are determined by the span's contents alone: two blocks
      delimiting equal sample sequences, in the same buffer or not, have
      equal tight corners. So shrinking reads nothing outside the span. */
  lemma TightCornersAreUnique(buf1: seq<Point>, b1: Block, buf2: seq<Point>, b2: Block)
    requires Tight(buf1, b1) && Tight(buf2, b2)
    requires Span(buf1, b1) == Span(buf2, b2)
    ensures b1.minCorner == b2.minCorner && b1.maxCorner == b2.maxCorner
  {
    var pts := Span(buf1, b1);
    AttainedCornersInBox(pts, b1.minCorner, b1.maxCorner, b2.minCorner, b2.maxCorner);
    AttainedCornersInBox(pts, b2.minCorner, b2.maxCorner, b1.minCorner, b1.maxCorner);
    assert forall j | 0 <= j < NUM_DIMENSIONS :: b1.minCorner[j] == b2.minCorner[j];
    assert forall j | 0 <= j < NUM_DIMENSIONS :: b1.maxCorner[j] == b2.maxCorner[j];
  }

  /** The corners are ordered on every channel. */
  predicate Ordered(b: Block)
  {
    forall j | 0 <= j < NUM_DIMENSIONS :: b.minCorner[j] <= b.maxCorner[j]
  }

  /** Tight corners of a block are ordered. */
  lemma TightIsOrdered(buf: seq<Point>, b: Block)
    requires Tight(buf, b)
    ensures Ordered(b)
  {
  }

  /** The box's extent on channel `j`. */
  function Side(b: Block, j: Dim): int
  {
    b.maxCorner[j] - b.minCorner[j]
  }

  /** The channel with the greatest extent; on a tie, the lowest such channel. */
  method LongestSideIndex(b: Block) returns (index: Dim)
    ensures forall j: Dim :: Side(b, j) <= Side(b, index)
    ensures forall j: Dim | j < index :: Side(b, j) < Side(b, index)
  {
    var m := Side(b, 0);
    index := 0;
    var i := 1;
    while i < NUM_DIMENSIONS
      invariant 1 <= i <= NUM_DIMENSIONS
      invariant 0 <= index < i
      invariant m == Side(b, index)
      invariant forall j: Dim | j < i :: Side(b, j) <= m
      invariant forall j: Dim | j < index :: Side(b, j) < m
    {
      var diff := Side(b, i);
      if diff > m {
        m := diff;
        index := i;
      }
      i := i + 1;
    }
  }

  /** The greatest extent over all channels; never negative for ordered corners. */
  method LongestSideLength(b: Block) returns (len: int)
    ensures forall j: Dim :: Side(b, j) <= len
    ensures exists j: Dim :: Side(b, j) == len
    ensures Ordered(b) ==> len >= 0
  {
    var index := LongestSideIndex(b);
    len := Side(b, index);
  }

  /** Product of the extents of the first `d` channels. */
  function SideProduct(b: Block, d: nat): int
    requires d <= NUM_DIMENSIONS
    decreases d
  {
    if d == 0 then 1 else SideProduct(b, d - 1) * Side(b, d - 1)
  }

  /** The volume of the box: the product of its extents over all channels. */
  function Volume(b: Block): int
  {
    SideProduct(b, NUM_DIMENSIONS)
  }

  /** The product of the first `d` extents is zero exactly when one of them
      is, and is never negative when none of them is. */
  lemma {:induction false} SideProductSign(b: Block, d: nat)
    requires d <= NUM_DIMENSIONS
    ensures SideProduct(b, d) == 0 <==> exists j: Dim | j < d :: Side(b, j) == 0
    ensures (forall j: Dim | j < d :: Side(b, j) >= 0) ==> SideProduct(b, d) >= 0
    decreases d
  {
    if d > 0 {
      SideProductSign(b, d - 1);
    }
  }

  /** A box has zero volume exactly when it is flat on some channel, and an
      ordered box never has negative volume. */
  lemma VolumeSign(b: Block)
    ensures Volume(b) == 0 <==> exists j: Dim :: Side(b, j) == 0
    ensures Ordered(b) ==> Volume(b) >= 0
  {
    SideProductSign(b, NUM_DIMENSIONS);
  }

  /** The block order used to pick the next block to split: by volume. */
  predicate BlockLess(a: Block, b: Block)
  {
    Volume(a) < Volume(b)
  }

  /** `BlockLess` is a strict weak ordering on blocks. */
  lemma BlockLessIsStrictWeakOrder(a: Block, b: Block, c: Block)
    ensures !BlockLess(a, a)
    ensures BlockLess(a, b) ==> !BlockLess(b, a)
    ensures BlockLess(a, b) && BlockLess(b, c) ==> BlockLess(a, c)
    ensures !BlockLess(a, b) && !BlockLess(b, a) ==> Volume(a) == Volume(b)
  {
  }

  /** Cuts a splittable block at its median position, `(len + 1) / 2` samples
      into the span. Both halves keep the parent's corners until they are
      shrunk. */
  function Split(b: Block): (halves: (Block, Block))
    requires Splittable(b)
    ensures halves.0.start == b.start
    ensures halves.1.start == End(halves.0)
    ensures End(halves.1) == End(b)
    ensures halves.0.len >= 1 && halves.1.len >= 1
    ensures halves.1.len <= halves.0.len <= halves.1.len + 1
    ensures halves.0.minCorner == halves.1.minCorner == b.minCorner
    ensures halves.0.maxCorner == halves.1.maxCorner == b.maxCorner
  {
    var median := (b.len + 1) / 2;
    (Block(b.start, median, b.minCorner, b.maxCorner),
     Block(b.start + median, b.len - median, b.minCorner, b.maxCorner))
  }

  /** The two halves delimit, in order, exactly the parent's samples, and
      the parent's box still encloses each half. */
  lemma SplitPartitionsSpan(buf: seq<Point>, b: Block)
    requires Splittable(b) && InBuffer(b, |buf|)
    ensures InBuffer(Split(b).0, |buf|) && InBuffer(Split(b).1, |buf|)
    ensures Span(buf, Split(b).0) + Span(buf, Split(b).1) == Span(buf, b)
    ensures Encloses(Span(buf, b), b.minCorner, b.maxCorner) ==>
      Encloses(Span(buf, Split(b).0), b.minCorner, b.maxCorner) &&
      Encloses(Span(buf, Split(b).1), b.minCorner, b.maxCorner)
  {
    var (l, r) := Split(b);
    assert Span(buf, l) + Span(buf, r) == Span(buf, b);
    if Encloses(Span(buf, b), b.minCorner, b.maxCorner) {
      forall k | 0 <= k < |Span(buf, l)|
        ensures InBox(Span(buf, l)[k], b.minCorner, b.maxCorner)
      {
        assert Span(buf, l)[k] == Span(buf, b)[k];
      }
      forall k | 0 <= k < |Span(buf, r)|
        ensures InBox(Span(buf, r)[k], b.minCorner, b.maxCorner)
      {
        assert Span(buf, r)[k] == Span(buf, b)[l.len + k];
      }
    }
  }
}

=== FILE: median_cut.dfy ===
/**
  The median-cut driver: repeatedly split a largest-volume splittable block
  at the median of its longest channel, then reduce every block to its
  mean colour and its sample count.

  The sample buffer is permuted, never copied or changed otherwise; the
  permuted buffer and the final blocks are returned next to the palette so
  that the palette can be related to the samples it summarises.
 */
module Quantizer {
  import opened Points
  import opened Blocks
  import opened Selection
  import opened Tiling
  import opened Separation

  datatype Option<T> = None | Some(value: T)

  /** One palette entry: a representative colour and the number of samples
      it stands for. */
  datatype Entry = Entry(colour: Point, count: nat)

  /** Sum of channel `j` over all samples. */
  function ChannelSum(pts: seq<Point>, j: Dim): int
    decreases |pts|
  {
    if |pts| == 0 then 0 else pts[0][j] + ChannelSum(pts[1..], j)
  }

  /** Channel-wise mean of a non-empty sample sequence, rounded down. */
  function Mean(pts: seq<Point>): Point
    requires |pts| >= 1
  {
    seq(NUM_DIMENSIONS, j requires 0 <= j < NUM_DIMENSIONS => ChannelSum(pts, j) / |pts|)
  }

  /** Total count over a palette. */
  function SumCounts(palette: seq<Entry>): nat
    decreases |palette|
  {
    if |palette| == 0 then 0 else palette[0].count + SumCounts(palette[1..])
  }

  /** Bounds on every sample's channel `j` bound the channel sum. */
  lemma {:induction false} ChannelSumBounds(pts: seq<Point>, j: Dim, lo: int, hi: int)
    requires forall k | 0 <= k < |pts| :: lo <= pts[k][j] <= hi
    ensures |pts| * lo <= ChannelSum(pts, j) <= |pts| * hi
    decreases |pts|
  {
    if |pts| > 0 {
      ChannelSumBounds(pts[1..], j, lo, hi);
      assert |pts| * lo == (|pts| - 1) * lo + lo;
      assert |pts| * hi == (|pts| - 1) * hi + hi;
    }
  }

  /** Multiplying by a natural number preserves order. */
  lemma {:induction false} MulMonotone(n: nat, a: int, b: int)
    ensures a <= b ==> n * a <= n * b
    decreases n
  {
    if n > 0 {
      MulMonotone(n - 1, a, b);
      assert n * a == (n - 1) * a + a;
      assert n * b == (n - 1) * b + b;
    }
  }

  /** Rounding-down division keeps a quotient between the bounds. */
  lemma DivBounds(s: int, n: int, lo: int, hi: int)
    requires n > 0 && n * lo <= s <= n * hi
    ensures lo <= s / n <= hi
  {
    var q, r := s / n, s % n;
    assert s == n * q + r && 0 <= r < n;
    assert n * (q + 1) == n * q + n;
    assert n * (hi + 1) == n * hi + n;
    MulMonotone(n, q + 1, lo);
    MulMonotone(n, hi + 1, q);
  }

  /** The mean colour lies inside every box that encloses the samples, in
      particular inside the tight box of the samples' block. */
  lemma MeanInBox(pts: seq<Point>, lo: Point, hi: Point)
    requires |pts| >= 1 && Encloses(pts, lo, hi)
    ensures InBox(Mean(pts), lo, hi)
  {
    forall j | 0 <= j < NUM_DIMENSIONS
      ensures lo[j] <= Mean(pts)[j] <= hi[j]
    {
      assert forall k | 0 <= k < |pts| :: InBox(pts[k], lo, hi);
      ChannelSumBounds(pts, j, lo[j], hi[j]);
      DivBounds(ChannelSum(pts, j), |pts|, lo[j], hi[j]);
    }
  }

  /** Samples that are all the same colour have exactly that colour as mean. */
  lemma MeanOfUniform(pts: seq<Point>, p: Point)
    requires |pts| >= 1
    requires forall k | 0 <= k < |pts| :: pts[k] == p
    ensures Mean(pts) == p
  {
    MeanInBox(pts, p, p);
  }

  /** Picks a block to split: one that holds at least two samples and that
      no other such block exceeds in the block order. There is none exactly
      when every block holds fewer than two samples. */
  method SelectBlock(blocks: seq<Block>) returns (choice: Option<nat>)
    ensures choice.None? <==> forall k | 0 <= k < |blocks| :: !Splittable(blocks[k])
    ensures choice.Some? ==> choice.value < |blocks| && Splittable(blocks[choice.value])
    ensures choice.Some? ==>
      forall k | 0 <= k < |blocks| && Splittable(blocks[k]) :: !BlockLess(blocks[choice.value], blocks[k])
  {
    choice := None;
    var i := 0;
    while i < |blocks|
      invariant 0 <= i <= |blocks|
      invariant choice.None? <==> forall k | 0 <= k < i :: !Splittable(blocks[k])
      invariant choice.Some? ==> choice.value < i && Splittable(blocks[choice.value])
      invariant choice.Some? ==>
        forall k | 0 <= k < i && Splittable(blocks[k]) :: !BlockLess(blocks[choice.value], blocks[k])
    {
      if Splittable(blocks[i]) && (choice.None? || BlockLess(blocks[choice.value], blocks[i])) {
        choice := Some(i);
      }
      i := i + 1;
    }
  }

  /** Counts of a palette that match the block lengths add up to their total. */
  lemma {:induction false} SumCountsMatchesSumLen(palette: seq<Entry>, blocks: seq<Block>)
    requires |palette| == |blocks|
    requires forall k | 0 <= k < |blocks| :: palette[k].count == blocks[k].len
    ensures SumCounts(palette) == SumLen(blocks)
    decreases |blocks|
  {
    if |blocks| > 0 {
      assert forall k | 0 <= k < |blocks[1..]| :: palette[1..][k].count == blocks[1..][k].len;
      SumCountsMatchesSumLen(palette[1..], blocks[1..]);
    }
  }

  /** Reduces every block to its mean colour and its sample count. */
  method Summarize(buf: seq<Point>, blocks: seq<Block>) returns (palette: seq<Entry>)
    requires forall k | 0 <= k < |blocks| :: InBuffer(blocks[k], |buf|) && blocks[k].len >= 1
    ensures |palette| == |blocks|
    ensures forall k | 0 <= k < |blocks| ::
      palette[k].count == blocks[k].len && palette[k].colour == Mean(Span(buf, blocks[k]))
    ensures SumCounts(palette) == SumLen(blocks)
  {
    palette := [];
    var i := 0;
    while i < |blocks|
      invariant 0 <= i <= |blocks|
      invariant |palette| == i
      invariant forall k | 0 <= k < i ::
        palette[k].count == blocks[k].len && palette[k].colour == Mean(Span(buf, blocks[k]))
    {
      var b := blocks[i];
      palette := palette + [Entry(Mean(Span(buf, b)), b.len)];
      i := i + 1;
    }
    SumCountsMatchesSumLen(palette, blocks);
  }

  /** Replacing block `k` by two tight halves after reordering only block
      `k`'s span leaves every block of the new list tight. */
  lemma NeighboursStayTight(buf: seq<Point>, reordered: seq<Point>, blocks: seq<Block>, k: nat,
                            left: Block, right: Block, next: seq<Block>)
    requires Tiles(blocks, 0, |buf|) && k < |blocks|
    requires forall j | 0 <= j < |blocks| :: Tight(buf, blocks[j])
    requires |reordered| == |buf|
    requires forall i | 0 <= i < |buf| && !InSpan(blocks[k], i) :: reordered[i] == buf[i]
    requires Tight(reordered, left) && Tight(reordered, right)
    requires next == blocks[..k] + [left, right] + blocks[k + 1..]
    ensures forall j | 0 <= j < |next| :: Tight(reordered, next[j])
  {
    var b := blocks[k];
    TilesOrder(blocks, 0, |buf|);
    forall j | 0 <= j < |next|
      ensures Tight(reordered, next[j])
    {
      if j < k {
        assert next[j] == blocks[j];
        SpanUnchanged(buf, reordered, b.start, End(b), blocks[j]);
      } else if j > k + 1 {
        assert next[j] == blocks[j - 1];
        SpanUnchanged(buf, reordered, b.start, End(b), blocks[j - 1]);
      }
    }
  }

  /**
    Splits block `k`: reorders its span along its longest channel around the
    median position `(len + 1) / 2` and replaces it by its two halves, each
    shrunk to fit.
    Only block `k`'s span of the buffer moves, so every other block keeps
    its samples and its tight corners; the tiling and the multiset of
    samples are preserved, and every sample of the left half is no greater
    on the cut channel than every sample of the right half.
   */
  method SplitBlock(buf: seq<Point>, blocks: seq<Block>, k: nat)
    returns (axis: Dim, reordered: seq<Point>, next: seq<Block>)
    requires Tiles(blocks, 0, |buf|)
    requires forall j | 0 <= j < |blocks| :: Tight(buf, blocks[j])
    requires k < |blocks| && Splittable(blocks[k])
    ensures forall j: Dim :: Side(blocks[k], j) <= Side(blocks[k], axis)
    ensures |reordered| == |buf| && multiset(reordered) == multiset(buf)
    ensures forall i | 0 <= i < |buf| && !InSpan(blocks[k], i) :: reordered[i] == buf[i]
    ensures |next| == |blocks| + 1
    ensures next[..k] == blocks[..k] && next[k + 2..] == blocks[k + 1..]
    ensures next[k].start == blocks[k].start && End(next[k + 1]) == End(blocks[k])
    ensures next[k].len >= 1 && next[k + 1].len >= 1
    ensures next[k].len == (blocks[k].len + 1) / 2
    ensures next[k].len + next[k + 1].len == blocks[k].len
    ensures Tiles(next, 0, |buf|)
    ensures forall j | 0 <= j < |next| :: Tight(reordered, next[j])
    ensures End(next[k + 1]) <= |reordered|
    ensures multiset(Span(reordered, blocks[k])) == multiset(Span(buf, blocks[k]))
    ensures PairwiseSeparated(buf, blocks) ==> PairwiseSeparated(reordered, next)
    ensures forall a, b | next[k].start <= a < End(next[k]) <= b < End(next[k + 1]) ::
      !CoordLess(axis, reordered[b], reordered[a])
  {
    var b := blocks[k];
    TilesOrder(blocks, 0, |buf|);
    axis := LongestSideIndex(b);
    var halves := Split(b);
    reordered := NthElement(buf, b.start, halves.1.start, End(b), axis);
    var left := Shrink(reordered, halves.0);
    var right := Shrink(reordered, halves.1);
    next := blocks[..k] + [left, right] + blocks[k + 1..];
    TilesSplit(blocks, 0, |buf|, k, left, right);
    NeighboursStayTight(buf, reordered, blocks, k, left, right, next);
    assert next[k + 2..] == blocks[k + 1..];
    if PairwiseSeparated(buf, blocks) {
      SplitKeepsSeparated(buf, reordered, blocks, k, axis, next);
    }
  }

  /**
    Median cut of `image` into at most `desiredSize` blocks (at least one
    when there are samples).

    `buf` is `image` permuted; `blocks` tile `buf` in order, each with tight
    corners; `palette[k]` is the mean colour of block `k`'s own samples,
    which lies inside its box, and its sample count. The counts add up to the number of samples.
    Splitting stops only when `desiredSize` blocks exist or every block
    holds one sample, so the palette has exactly
    `min(max(desiredSize, 1), |image|)` entries.
   */
  method MedianCut(image: seq<Point>, desiredSize: nat)
    returns (buf: seq<Point>, blocks: seq<Block>, palette: seq<Entry>)
    ensures multiset(buf) == multiset(image)
    ensures Tiles(blocks, 0, |buf|)
    ensures forall k | 0 <= k < |blocks| :: Tight(buf, blocks[k])
    ensures |palette| == |blocks|
    ensures forall k | 0 <= k < |palette| :: palette[k].count == blocks[k].len >= 1
    ensures forall k | 0 <= k < |palette| ::
      InBuffer(blocks[k], |buf|) && palette[k].colour == Mean(Span(buf, blocks[k]))
    ensures forall k | 0 <= k < |palette| ::
      InBox(palette[k].colour, blocks[k].minCorner, blocks[k].maxCorner)
    ensures PairwiseSeparated(buf, blocks)
    ensures SumCounts(palette) == |image|
    ensures |image| == 0 ==> |palette| == 0
    ensures |image| > 0 ==> |palette| == Min(Max(desiredSize, 1), |image|)
  {
    buf := image;
    if |image| == 0 {
      blocks := [];
      palette := [];
      return;
    }
    var whole := Shrink(buf, Block(0, |buf|, buf[0], buf[0]));
    blocks := [whole];
    while |blocks| < desiredSize
      invariant |buf| == |image| && multiset(buf) == multiset(image)
      invariant Tiles(blocks, 0, |buf|)
      invariant forall k | 0 <= k < |blocks| :: Tight(buf, blocks[k])
      invariant PairwiseSeparated(buf, blocks)
      invariant 1 <= |blocks| <= Max(desiredSize, 1)
      invariant |blocks| <= |buf|
      decreases |buf| - |blocks|
    {
      var choice := SelectBlock(blocks);
      if choice.None? {
        break;
      }
      var axis, reordered, next := SplitBlock(buf, blocks, choice.value);
      TilesCount(next, 0, |buf|);
      buf := reordered;
      blocks := next;
    }
    TilesOrder(blocks, 0, |buf|);
    TilesCount(blocks, 0, |buf|);
    TilesSumLen(blocks, 0, |buf|);
    palette := Summarize(buf, blocks);
    forall k | 0 <= k < |palette|
      ensures InBox(palette[k].colour, blocks[k].minCorner, blocks[k].maxCorner)
    {
      MeanInBox(Span(buf, blocks[k]), blocks[k].minCorner, blocks[k].maxCorner);
    }
  }
}

=== FILE: points.dfy ===
/**
  Colour samples and the scalar helpers the median cut is built on.

  A sample has one exact integer value per channel; the channel count is
  fixed at three (R, G, B or any other three-channel colour space).
 */
module Points {

  /** Number of colour channels in every sample. */
  const NUM_DIMENSIONS: nat := 3

  /** A channel index. */
  type Dim = i: int | 0 <= i < NUM_DIMENSIONS

  /** One colour sample: exactly one value per channel. */
  type Point = p: seq<int> | |p| == NUM_DIMENSIONS witness [0, 0, 0]

  /** The smaller of two values; on a tie the second one. */
  function Min(a: int, b: int): (r: int)
    ensures r <= a && r <= b
    ensures r == a || r == b
  {
    if a < b then a else b
  }

  /** The larger of two values; on a tie the second one. */
  function Max(a: int, b: int): (r: int)
    ensures r >= a && r >= b
    ensures r == a || r == b
  {
    if a > b then a else b
  }

  /** Channel-wise minimum of two samples. */
  function PointMin(p: Point, q: Point): Point
  {
    seq(NUM_DIMENSIONS, j requires 0 <= j < NUM_DIMENSIONS => Min(p[j], q[j]))
  }

  /** Channel-wise maximum of two samples. */
  function PointMax(p: Point, q: Point): Point
  {
    seq(NUM_DIMENSIONS, j requires 0 <= j < NUM_DIMENSIONS => Max(p[j], q[j]))
  }

  /** The per-channel comparator: `left` comes before `right` when its
      value on channel `index` is smaller. */
  predicate CoordLess(index: Dim, left: Point, right: Point)
  {
    left[index] < right[index]
  }

  /** The comparator is a strict weak ordering, which is what a selection
      algorithm such as nth_element needs of it: irreflexive, asymmetric,
      transitive, and "neither before the other" is transitive too. */
  lemma CoordLessIsStrictWeakOrder(index: Dim, a: Point, b: Point, c: Point)
    ensures !CoordLess(index, a, a)
    ensures CoordLess(index, a, b) ==> !CoordLess(index, b, a)
    ensures CoordLess(index, a, b) && CoordLess(index, b, c) ==> CoordLess(index, a, c)
    ensures !CoordLess(index, a, b) && !CoordLess(index, b, a)
         && !CoordLess(index, b, c) && !CoordLess(index, c, b)
         ==> !CoordLess(index, a, c) && !CoordLess(index, c, a)
  {
  }

  /** The comparator looks at channel `index` and at nothing else. */
  lemma CoordLessReadsOneChannel(index: Dim, a: Point, b: Point, a': Point, b': Point)
    requires a[index] == a'[index] && b[index] == b'[index]
    ensures CoordLess(index, a, b) == CoordLess(index, a', b')
  {
  }
}

=== FILE: selection.dfy ===
/**
  Reordering a span of the buffer along one channel so that the sample at
  a chosen position separates smaller values from larger ones (the
  guarantee nth_element gives). The reordering is realised by an insertion
  sort of the span; callers rely only on the partition guarantee.
 */
module Selection {
  import opened Points

  /** `s` is non-decreasing on channel `index`, in comparator terms. */
  predicate SortedBy(index: Dim, s: seq<Point>)
  {
    forall a, b | 0 <= a < b < |s| :: !CoordLess(index, s[b], s[a])
  }

  /** Inserts `p` before the first sample not smaller than it on channel `index`. */
  function InsertBy(index: Dim, p: Point, s: seq<Point>): seq<Point>
    decreases |s|
  {
    if |s| == 0 then [p]
    else if CoordLess(index, s[0], p) then [s[0]] + InsertBy(index, p, s[1..])
    else [p] + s
  }

  /** Insertion sort on channel `index`. */
  function SortBy(index: Dim, s: seq<Point>): seq<Point>
    decreases |s|
  {
    if |s| == 0 then [] else InsertBy(index, s[0], SortBy(index, s[1..]))
  }

  /** Inserting adds exactly the one sample. */
  lemma {:induction false} InsertByPermutes(index: Dim, p: Point, s: seq<Point>)
    ensures multiset(InsertBy(index, p, s)) == multiset(s) + multiset{p}
    decreases |s|
  {
    if |s| > 0 && CoordLess(index, s[0], p) {
      InsertByPermutes(index, p, s[1..]);
      assert s == [s[0]] + s[1..];
    }
  }

  /** Inserting into a sorted sequence keeps it sorted. */
  lemma {:induction false} InsertByKeepsSorted(index: Dim, p: Point, s: seq<Point>)
    requires SortedBy(index, s)
    ensures SortedBy(index, InsertBy(index, p, s))
    decreases |s|
  {
    if |s| == 0 {
    } else if CoordLess(index, s[0], p) {
      var rest := InsertBy(index, p, s[1..]);
      InsertByKeepsSorted(index, p, s[1..]);
      InsertByPermutes(index, p, s[1..]);
      forall k | 0 <= k < |rest|
        ensures !CoordLess(index, rest[k], s[0])
      {
        assert rest[k] in multiset(rest);
        if rest[k] != p {
          assert rest[k] in multiset(s[1..]);
          var m :| 0 <= m < |s[1..]| && s[1..][m] == rest[k];
          assert s[m + 1] == rest[k];
        }
      }
      var r := [s[0]] + rest;
      forall a, b | 0 <= a < b < |r|
        ensures !CoordLess(index, r[b], r[a])
      {
        if a > 0 {
          assert r[a] == rest[a - 1] && r[b] == rest[b - 1];
        } else {
          assert r[b] == rest[b - 1];
        }
      }
    } else {
      var r := [p] + s;
      forall a, b | 0 <= a < b < |r|
        ensures !CoordLess(index, r[b], r[a])
      {
        if a == 0 {
          assert r[b] == s[b - 1];
          assert !CoordLess(index, s[b - 1], s[0]) || b - 1 == 0;
        }
      }
    }
  }

  /** Sorting permutes its input and orders it on channel `index`. */
  lemma {:induction false} SortBySortsAndPermutes(index: Dim, s: seq<Point>)
    ensures multiset(SortBy(index, s)) == multiset(s)
    ensures SortedBy(index, SortBy(index, s))
    decreases |s|
  {
    if |s| > 0 {
      SortBySortsAndPermutes(index, s[1..]);
      InsertByPermutes(index, s[0], SortBy(index, s[1..]));
      InsertByKeepsSorted(index, s[0], SortBy(index, s[1..]));
      assert s == [s[0]] + s[1..];
    }
  }

  /** Reorders `buf[first..last]` along channel `index` so that no sample
      before position `median` is greater than a sample at or after it.
      Samples outside the span stay where they are, and the span keeps its
      samples. */
  method NthElement(buf: seq<Point>, first: nat, median: nat, last: nat, index: Dim)
    returns (out: seq<Point>)
    requires first <= median <= last <= |buf|
    ensures |out| == |buf|
    ensures multiset(out[first..last]) == multiset(buf[first..last])
    ensures multiset(out) == multiset(buf)
    ensures forall i | 0 <= i < |buf| && !(first <= i < last) :: out[i] == buf[i]
    ensures forall a, b | first <= a < median <= b < last :: !CoordLess(index, out[b], out[a])
  {
    var sorted := SortBy(index, buf[first..last]);
    SortBySortsAndPermutes(index, buf[first..last]);
    assert |sorted| == last - first by {
      assert |multiset(sorted)| == |multiset(buf[first..last])|;
    }
    out := buf[..first] + sorted + buf[last..];
    assert out[first..last] == sorted;
    assert buf == buf[..first] + buf[first..last] + buf[last..];
    assert multiset(out) == multiset(buf) by {
      assert multiset(sorted) == multiset(buf[first..last]);
    }
    forall a, b | first <= a < median <= b < last
      ensures !CoordLess(index, out[b], out[a])
    {
      assert out[a] == sorted[a - first] && out[b] == sorted[b - first];
    }
  }
}

=== FILE: separation.dfy ===
/**
  Separation of blocks: two blocks are cut apart on a channel when no
  sample of the first lies above any sample of the second on it. A cut at
  the median of a partitioned span separates its halves, and later cuts,
  which only reorder samples inside one block, keep every earlier pair
  separated.
 */
module Separation {
  import opened Points
  import opened Blocks
  import opened Tiling

  /** A block whose span avoids the reordered range delimits the same
      samples before and after the reordering. */
  lemma SpanUnchanged(buf: seq<Point>, out: seq<Point>, first: int, last: int, c: Block)
    requires |out| == |buf| && InBuffer(c, |buf|)
    requires forall i | 0 <= i < |buf| && !(first <= i < last) :: out[i] == buf[i]
    requires End(c) <= first || last <= c.start
    ensures Span(out, c) == Span(buf, c)
  {
    assert forall i | 0 <= i < c.len :: Span(out, c)[i] == out[c.start + i];
  }

  /** On channel `c`, no sample of block `x` lies above any sample of
      block `y`. */
  ghost predicate SeparatedOn(buf: seq<Point>, x: Block, y: Block, c: Dim)
  {
    && InBuffer(x, |buf|) && InBuffer(y, |buf|)
    && forall p, q | p in Span(buf, x) && q in Span(buf, y) :: p[c] <= q[c]
  }

  /** Blocks `x` and `y` are cut apart on some channel. */
  ghost predicate Separated(buf: seq<Point>, x: Block, y: Block)
  {
    exists c: Dim :: SeparatedOn(buf, x, y, c)
  }

  /** Every block of `bs` is cut apart on some channel from every later
      block: what repeated cuts at a median leave behind. */
  ghost predicate PairwiseSeparated(buf: seq<Point>, bs: seq<Block>)
  {
    forall i, j | 0 <= i < j < |bs| :: Separated(buf, bs[i], bs[j])
  }

  /** Blocks whose samples were drawn from two separated blocks are
      separated on the same channel. */
  lemma SeparatedShrinks(buf: seq<Point>, x: Block, y: Block, buf': seq<Point>, x': Block, y': Block)
    requires Separated(buf, x, y)
    requires InBuffer(x', |buf'|) && InBuffer(y', |buf'|)
    requires forall p | p in Span(buf', x') :: p in Span(buf, x)
    requires forall q | q in Span(buf', y') :: q in Span(buf, y)
    ensures Separated(buf', x', y')
  {
    var c: Dim :| SeparatedOn(buf, x, y, c);
    assert SeparatedOn(buf', x', y', c);
  }

  /** After reordering block `b`'s span among itself, every sample of a
      sub-span of `b` was a sample of `b` before. */
  lemma SubSpanWithinParent(buf: seq<Point>, reordered: seq<Point>, b: Block, h: Block)
    requires InBuffer(b, |buf|) && |reordered| == |buf|
    requires multiset(Span(reordered, b)) == multiset(Span(buf, b))
    requires b.start <= h.start && End(h) <= End(b)
    ensures forall p | p in Span(reordered, h) :: p in Span(buf, b)
  {
    forall p | p in Span(reordered, h)
      ensures p in Span(buf, b)
    {
      assert exists i | 0 <= i < h.len :: Span(reordered, h)[i] == p;
      var i :| 0 <= i < h.len && Span(reordered, h)[i] == p;
      assert Span(reordered, b)[h.start - b.start + i] == p;
      assert p in multiset(Span(reordered, b));
    }
  }

  /** Two adjacent halves partitioned on channel `axis` are separated on it. */
  lemma HalvesSeparated(reordered: seq<Point>, left: Block, right: Block, axis: Dim)
    requires right.start == End(left) && End(right) <= |reordered|
    requires forall a, b | left.start <= a < End(left) <= b < End(right) ::
      !CoordLess(axis, reordered[b], reordered[a])
    ensures SeparatedOn(reordered, left, right, axis)
  {
    forall p, q | p in Span(reordered, left) && q in Span(reordered, right)
      ensures p[axis] <= q[axis]
    {
      assert exists a | 0 <= a < left.len :: Span(reordered, left)[a] == p;
      var a :| 0 <= a < left.len && Span(reordered, left)[a] == p;
      assert exists b | 0 <= b < right.len :: Span(reordered, right)[b] == q;
      var b :| 0 <= b < right.len && Span(reordered, right)[b] == q;
      assert reordered[left.start + a] == p && reordered[right.start + b] == q;
    }
  }

  /** The block of the old list that block `i` of the list with block `k`
      replaced by two halves came from. */
  function Parent(i: nat, k: nat): nat
  {
    if i < k then i else if i <= k + 1 then k else i - 1
  }

  /** Halving an unsorted buffer without reordering it does not separate
      the halves: with samples 5, 0, 9, 1 (equal on every channel), the 5
      on the left lies above the 1 on the right on every channel. */
  lemma UnsortedHalvesAreNotSeparated()
    ensures !PairwiseSeparated([[5, 5, 5], [0, 0, 0], [9, 9, 9], [1, 1, 1]], [Block(0, 2, [0, 0, 0], [5, 5, 5]), Block(2, 2, [1, 1, 1], [9, 9, 9])])
  {
    var buf: seq<Point> := [[5, 5, 5], [0, 0, 0], [9, 9, 9], [1, 1, 1]];
    var x, y := Block(0, 2, [0, 0, 0], [5, 5, 5]), Block(2, 2, [1, 1, 1], [9, 9, 9]);
    forall c: Dim
      ensures !SeparatedOn(buf, x, y, c)
    {
      assert buf[0] in Span(buf, x) && buf[3] in Span(buf, y);
    }
    assert !Separated(buf, x, y);
    var bs := [x, y];
    assert bs[0] == x && bs[1] == y;
    assert !Separated(buf, bs[0], bs[1]);
  }

  /** After block `k` is replaced by two halves of its span and only that
      span is reordered, every sample of block `i` of the new list was a
      sample of its parent block before. */
  lemma ChildWithinParent(buf: seq<Point>, reordered: seq<Point>, blocks: seq<Block>, k: nat,
                          next: seq<Block>, i: nat)
    requires Tiles(blocks, 0, |buf|) && k < |blocks| && InBuffer(blocks[k], |buf|)
    requires |reordered| == |buf|
    requires forall n | 0 <= n < |buf| && !InSpan(blocks[k], n) :: reordered[n] == buf[n]
    requires multiset(Span(reordered, blocks[k])) == multiset(Span(buf, blocks[k]))
    requires |next| == |blocks| + 1 && Tiles(next, 0, |buf|) && i < |next|
    requires next[..k] == blocks[..k] && next[k + 2..] == blocks[k + 1..]
    requires next[k].start == blocks[k].start && End(next[k + 1]) == End(blocks[k])
    ensures Parent(i, k) < |blocks| && InBuffer(next[i], |reordered|)
    ensures forall p | p in Span(reordered, next[i]) :: p in Span(buf, blocks[Parent(i, k)])
  {
    var b := blocks[k];
    TilesOrder(next, 0, |buf|);
    if i < k {
      TilesOrder(blocks, 0, |buf|);
      assert next[i] == blocks[i];
      SpanUnchanged(buf, reordered, b.start, End(b), blocks[i]);
    } else if i > k + 1 {
      TilesOrder(blocks, 0, |buf|);
      assert next[i] == blocks[i - 1];
      SpanUnchanged(buf, reordered, b.start, End(b), blocks[i - 1]);
    } else {
      SubSpanWithinParent(buf, reordered, b, next[i]);
    }
  }

  /** Splitting block `k` into two halves partitioned on `axis`, after
      reordering only block `k`'s span, keeps every pair of blocks
      separated: the halves on `axis`, every other pair on the channel
      their parents were. */
  lemma SplitKeepsSeparated(buf: seq<Point>, reordered: seq<Point>, blocks: seq<Block>, k: nat,
                            axis: Dim, next: seq<Block>)
    requires Tiles(blocks, 0, |buf|) && k < |blocks| && InBuffer(blocks[k], |buf|)
    requires |reordered| == |buf|
    requires forall i | 0 <= i < |buf| && !InSpan(blocks[k], i) :: reordered[i] == buf[i]
    requires multiset(Span(reordered, blocks[k])) == multiset(Span(buf, blocks[k]))
    requires |next| == |blocks| + 1 && Tiles(next, 0, |buf|)
    requires next[..k] == blocks[..k] && next[k + 2..] == blocks[k + 1..]
    requires next[k].start == blocks[k].start && End(next[k + 1]) == End(blocks[k])
    requires forall a, b | next[k].start <= a < End(next[k]) <= b < End(next[k + 1]) ::
      !CoordLess(axis, reordered[b], reordered[a])
    requires PairwiseSeparated(buf, blocks)
    ensures PairwiseSeparated(reordered, next)
  {
    forall i, j | 0 <= i < j < |next|
      ensures Separated(reordered, next[i], next[j])
    {
      if i == k && j == k + 1 {
        assert next[k + 1].start == End(next[k]);
        HalvesSeparated(reordered, next[k], next[k + 1], axis);
      } else {
        ChildWithinParent(buf, reordered, blocks, k, next, i);
        ChildWithinParent(buf, reordered, blocks, k, next, j);
        SeparatedShrinks(buf, blocks[Parent(i, k)], blocks[Parent(j, k)], reordered, next[i], next[j]);
      }
    }
  }
}

=== FILE: tiling.dfy ===
/**
  The block list as a tiling of the buffer: the blocks, in list order,
  delimit consecutive non-empty spans that together cover `[from, to)`.
  Splitting a block in place keeps the tiling; from a tiling follow
  disjointness, coverage and the sum of the block lengths.
 */
module Tiling {
  import opened Blocks

  /** `bs` cuts `[from, to)` into consecutive non-empty spans, in order:
      the first starts at `from`, each next one starts where the previous
      one ends, and the last ends at `to`. */
  ghost predicate Tiles(bs: seq<Block>, from: int, to: int)
  {
    && (|bs| == 0 ==> from == to)
    && (|bs| > 0 ==> bs[0].start == from && End(bs[|bs| - 1]) == to)
    && (forall k | 0 <= k < |bs| :: bs[k].len >= 1)
    && (forall k | 0 <= k < |bs| - 1 :: bs[k + 1].start == End(bs[k]))
  }

  /** Total number of samples the blocks delimit. */
  function SumLen(bs: seq<Block>): nat
    decreases |bs|
  {
    if |bs| == 0 then 0 else bs[0].len + SumLen(bs[1..])
  }

  /** Some block of `bs` delimits position `i`. */
  ghost predicate Covered(bs: seq<Block>, i: int)
  {
    exists k | 0 <= k < |bs| :: InSpan(bs[k], i)
  }

  /** Dropping the first block of a tiling tiles the rest of the range. */
  lemma TilesTail(bs: seq<Block>, from: int, to: int)
    requires Tiles(bs, from, to) && |bs| > 0
    ensures Tiles(bs[1..], End(bs[0]), to)
  {
    var tail := bs[1..];
    forall j | 0 <= j < |tail| - 1
      ensures tail[j + 1].start == End(tail[j])
    {
      assert tail[j] == bs[j + 1] && tail[j + 1] == bs[j + 2];
    }
    if |tail| > 0 {
      assert tail[0].start == End(bs[0]) by {
        assert tail[0] == bs[1];
      }
    }
  }

  /** The lengths of a tiling add up to the tiled range. */
  lemma {:induction false} TilesSumLen(bs: seq<Block>, from: int, to: int)
    requires Tiles(bs, from, to)
    ensures SumLen(bs) == to - from
    decreases |bs|
  {
    if |bs| > 0 {
      TilesTail(bs, from, to);
      TilesSumLen(bs[1..], from + bs[0].len, to);
    }
  }

  /** A tiling has at most one block per position, and exactly one per
      position precisely when every block holds a single sample. */
  lemma {:induction false} TilesCount(bs: seq<Block>, from: int, to: int)
    requires Tiles(bs, from, to)
    ensures |bs| <= to - from
    ensures |bs| == to - from <==> forall k | 0 <= k < |bs| :: bs[k].len == 1
    decreases |bs|
  {
    if |bs| > 0 {
      TilesTail(bs, from, to);
      TilesCount(bs[1..], from + bs[0].len, to);
      if forall k | 0 <= k < |bs| :: bs[k].len == 1 {
        assert forall k | 0 <= k < |bs[1..]| :: bs[1..][k].len == bs[k + 1].len;
      }
      if |bs| == to - from {
        forall k | 0 <= k < |bs|
          ensures bs[k].len == 1
        {
          if k > 0 {
            assert bs[k] == bs[1..][k - 1];
          }
        }
      }
    }
  }

  /** Every block of a tiling lies in the range, and the blocks follow one
      another without overlap. */
  lemma {:induction false} TilesOrder(bs: seq<Block>, from: int, to: int)
    requires Tiles(bs, from, to)
    ensures forall k | 0 <= k < |bs| :: from <= bs[k].start && End(bs[k]) <= to && bs[k].len >= 1
    ensures forall a, b | 0 <= a < b < |bs| :: End(bs[a]) <= bs[b].start
    decreases |bs|
  {
    if |bs| > 0 {
      TilesTail(bs, from, to);
      TilesOrder(bs[1..], from + bs[0].len, to);
      assert forall k | 1 <= k < |bs| :: bs[k] == bs[1..][k - 1];
    }
  }

  /** Every position of the range is delimited by exactly one block. */
  lemma TilesPartition(bs: seq<Block>, from: int, to: int)
    requires Tiles(bs, from, to)
    ensures forall i | from <= i < to :: Covered(bs, i)
    ensures forall a, b, i | 0 <= a < b < |bs| && InSpan(bs[a], i) :: !InSpan(bs[b], i)
  {
    TilesOrder(bs, from, to);
    forall i | from <= i < to
      ensures Covered(bs, i)
    {
      TilesCover(bs, from, to, i);
    }
  }

  /** Position `i` of the range is delimited by some block. */
  lemma {:induction false} TilesCover(bs: seq<Block>, from: int, to: int, i: int)
    requires Tiles(bs, from, to) && from <= i < to
    ensures Covered(bs, i)
    decreases |bs|
  {
    if i < from + bs[0].len {
      assert InSpan(bs[0], i);
    } else {
      TilesTail(bs, from, to);
      TilesCover(bs[1..], from + bs[0].len, to, i);
      var k :| 0 <= k < |bs[1..]| && InSpan(bs[1..][k], i);
      assert InSpan(bs[k + 1], i);
    }
  }

  /** Replacing block `k` by two consecutive non-empty halves of its span
      keeps the tiling. */
  lemma TilesSplit(bs: seq<Block>, from: int, to: int, k: nat, left: Block, right: Block)
    requires Tiles(bs, from, to) && k < |bs|
    requires left.start == bs[k].start && left.len >= 1
    requires right.start == End(left) && right.len >= 1 && End(right) == End(bs[k])
    ensures Tiles(bs[..k] + [left, right] + bs[k + 1..], from, to)
  {
    var nb := bs[..k] + [left, right] + bs[k + 1..];
    assert forall j | 0 <= j < k :: nb[j] == bs[j];
    assert forall j | k + 2 <= j < |nb| :: nb[j] == bs[j - 1];
    assert nb[k] == left && nb[k + 1] == right;
    forall j | 0 <= j < |nb| - 1
      ensures nb[j + 1].start == End(nb[j])
    {
      if j + 1 < k {
        assert nb[j] == bs[j] && nb[j + 1] == bs[j + 1];
      } else if j + 1 == k {
        assert nb[j] == bs[j];
      } else if j + 1 == k + 2 {
        assert nb[j + 1] == bs[k + 1];
      } else if j + 1 > k + 2 {
        assert nb[j] == bs[j - 1] && nb[j + 1] == bs[j];
      }
    }
  }
}
